=== FILE: README.md ===
# KeyboardCommander engine core in Dafny

This project models the core of KeyboardCommander, a small MonoGame 2D framework. The
modelled core has four parts:

- **Letterbox rectangle** (`Scale`). `MainGame.GetScaleRectangle` computes where the
  fixed-resolution frame is drawn inside the real window. It keeps the design aspect
  ratio, puts bars on one axis only, rounds half-up, and splits the spare pixels with C#
  integer division.
- **Host lifecycle** (`Host`). `MainGame` owns at most one current game state. Switching
  detaches the host's two event handlers from the old state, unloads it, initialises and
  loads the new state, and then attaches the handlers to the new state. The handler for
  `GameQuit` asks the game to exit. Each frame, the current state handles input and is
  then updated.
- **Shared game-state behaviour** (`GameStates`, `Registry`). This covers what
  `BaseGameState` does for every state:
  - storing the viewport and binding the input manager;
  - the update order (state logic, then soundtrack);
  - the event fan-out: listener, then objects in list order, then sound manager;
  - the state-switch signal;
  - the object list, with append and remove-first;
  - rendering in stable z-index order, with optional bounding boxes before each object.
- **Gameplay key bindings** (`GameplayInput`). `GameplayInputMapper.GetKeyboardState`
  maps the pressed keys to commands: Escape to `GameExit`, G to `KeyOfCPressed` and H to
  `KeyOfDPressed`, always in that order.

Side effects are recorded as returned values. Calls into a game state and into
collaborators that are not modelled are `Trace.Call` entries. Event deliveries are
`GameStates.Delivery` entries and draw calls are `GameStates.Draw` entries. C# event
subscription is the set of (state, event) pairs the host has handlers on.

Behaviour of the code worth knowing:

- A switch to a null state or to the current state is not rejected. Switching to the
  current state unloads it and initialises it again.
- A switch raised while a state handles input happens at once; it is not queued until
  after rendering. The same frame's `Update` then runs on the new state
  (`Host.SwitchDuringInputIsImmediate`). Signals the old state raises after that are
  dropped, because the host's handlers are already detached
  (`Host.SignalsAfterSwitchingAwayAreDropped`). This does not hold when the state switched
  to itself: the host attaches both handlers to it again, so a later `GameQuit` from it
  still requests exit (`Host.SwitchToSelfKeepsListening`).
- A switch raised from inside a state's `UpdateGameState` is also carried out at once. The
  state's `Update` then goes on to play the soundtrack of the state that was just
  unloaded, so the frame ends with that state's `PlaySoundtrack`
  (`Host.SwitchDuringUpdatePlaysUnloadedSoundtrack`).
- There is no fallback asset on a missing texture or sound. The `Empty` and `EmptySound`
  constants are declared but never used.
- There is no guard against a zero window size. A window with zero width or zero height
  gives a rectangle with zero width and zero height
  (`Scale.EmptyWindowGivesEmptyRectangle`). The integer branch test picks the same branch
  as the float code, except for a 0x0 window: there the float aspect ratio is NaN and the
  code takes the second branch while the model takes the first. Both branches give
  (0, 0, 0, 0) there.
- `UnloadContent` is not guaranteed after an exception.

## Model

| member | source | states |
|---|---|---|
| Scale.ScaleRectangle | src/Engine/MainGame.cs:73-96 | If the window is no wider than the design (`w*dh <= dw*h`): x = 0, width = window width, height = window width / design aspect rounded half-up, y = (h - height)/2. Otherwise the same with the axes swapped. The rectangle always lies inside the window, and the two bars on each axis differ by at most one pixel |
| Scale.SameAspectIsFullWindow | src/Engine/MainGame.cs:80-85 | A window with exactly the design aspect ratio gets the whole window, with no bars |
| Scale.InitialRectangleIsFullWindow | src/Engine/MainGame.cs:52-64 | The rectangle computed at start-up, with the window set to the design resolution, is (0, 0, dw, dh) |
| Scale.WiderWindowExample | src/Engine/MainGame.cs:87-93 | Design 800x600 in a 1000x600 window gives (100, 0, 800, 600) |
| Scale.TallerWindowExample | src/Engine/MainGame.cs:80-85 | Design 800x600 in an 800x700 window gives (0, 50, 800, 600) |
| Scale.EmptyWindowGivesEmptyRectangle | src/Engine/MainGame.cs:76-93 | A zero window width or height gives a rectangle with zero width and zero height |
| Scale.KeepsDesignAspect | src/Engine/MainGame.cs:80-93 | The presented rectangle's aspect ratio matches the design's to within half a pixel on the rounded side |
| Registry.RemoveFirst | src/Engine/States/BaseGameState.cs:91-94 | Removing an absent object leaves the list unchanged. Otherwise exactly the first occurrence is cut out |
| Registry.RemoveFirstContents | src/Engine/States/BaseGameState.cs:91-94 | Removal takes one copy of the object out of the list's contents, and nothing else |
| Registry.RemoveUndoesAppend | src/Engine/States/BaseGameState.cs:86-94 | Appending an absent object and then removing it gives back the original list |
| Registry.SortByZ | src/Engine/States/BaseGameState.cs:98 | The render order is sorted by z-index and is a permutation of the object list |
| Registry.SortByZIsStable | src/Engine/States/BaseGameState.cs:98 | Objects with equal z-index keep their list order |
| Registry.StableSortIsSortByZ | src/Engine/States/BaseGameState.cs:98 | Any stable sort by z-index of the list is this order, so the model matches `OrderBy(a => a.zIndex)` |
| Registry.SortExample | src/Engine/States/BaseGameState.cs:98 | z-indices registered as 3, 1, 2 render as 1, 2, 3 |
| Registry.SortTieExample | src/Engine/States/BaseGameState.cs:98 | Among equal z-indices, registration order is kept |
| GameStates.NewGameState | src/Engine/States/BaseGameState.cs:16-27 | A new state has no objects and debug drawing switched on |
| GameStates.Initialize | src/Engine/States/BaseGameState.cs:31-38 | The viewport width and height are stored as given, nothing else changes, and `SetInputManager` is called exactly once |
| GameStates.Update | src/Engine/States/BaseGameState.cs:53-57 | `UpdateGameState` and `PlaySoundtrack` each run exactly once, in that order |
| GameStates.NotifyEvent | src/Engine/States/BaseGameState.cs:69-79 | The event goes to the listener first, if one is attached, then to every object in list order, then to the sound manager last, and nowhere else |
| GameStates.SwitchState | src/Engine/States/BaseGameState.cs:81-84 | The state only raises the switch signal with the target. Its objects and settings are untouched and nothing is unloaded |
| GameStates.AddGameObject | src/Engine/States/BaseGameState.cs:86-89 | The object is appended: the list grows by one, the old list is a prefix, and the last entry is the new object |
| GameStates.RemoveGameObject | src/Engine/States/BaseGameState.cs:91-94 | Only the first occurrence is removed. An unregistered object leaves the state unchanged |
| GameStates.RemoveUndoesAdd | src/Engine/States/BaseGameState.cs:86-94 | Adding an unregistered object and then removing it gives back the same state |
| GameStates.Render | src/Engine/States/BaseGameState.cs:96-107 | Each object is drawn once, in stable z-index order. With debug set, its bounding boxes are drawn immediately before it; with debug clear, no bounding boxes are drawn |
| Host.NewMainGame | src/Engine/MainGame.cs:9-21 | Before the first switch, no state is current, no handler is attached and no exit is requested |
| Host.SwitchGameState | src/Engine/MainGame.cs:114-131 | Afterwards the target is current, initialised with the host's viewport, with its objects kept. The host's handlers stay attached to the current state only. The exit flag is unchanged |
| Host.SwitchTraceListed | src/Engine/MainGame.cs:114-131 | With a state current, a switch makes exactly eight calls: both unsubscriptions, the unload, `Initialize`, `SetInputManager`, `LoadContent`, then both subscriptions |
| Host.SwitchTearsDownBeforeSetUp | src/Engine/MainGame.cs:116-125 | With a state current, both handlers are detached before it is unloaded. It is unloaded exactly once, strictly before the new state is initialised |
| Host.SwitchSetsUpOnce | src/Engine/MainGame.cs:123-127 | The new state is initialised exactly once and loads its content exactly once |
| Host.SwitchSetsUpInOrder | src/Engine/MainGame.cs:125-130 | Initialize (which binds the input manager) comes before LoadContent, which comes before both handlers are attached |
| Host.FirstSwitchUnloadsNothing | src/Engine/MainGame.cs:102-121 | The first switch, with no state current, detaches and unloads nothing |
| Host.OnEventNotification | src/Engine/MainGame.cs:133-141 | Exit is requested exactly when the event is `GameQuit`. Every other event changes nothing |
| Host.Deliver | src/Engine/MainGame.cs:109-141 | A signal reaches the host only through a handler attached to the sender; otherwise nothing happens. The host stays valid, and a current state stays present |
| Host.DeliverAll | src/Engine/MainGame.cs:109-141 | Delivering a sequence of signals keeps the host valid, keeps a current state, and never withdraws an exit request |
| Host.Update | src/Engine/MainGame.cs:157-163 | The current state handles input first. The update then runs on whichever state is current after the input's signals: its state logic comes before its soundtrack, and its soundtrack ends the frame even when signals raised during its logic switched it away. With no signals in the update, the frame ends with the logic and soundtrack of the state current at the end. With no signals at all, the host is unchanged |
| Host.SwitchDuringUpdatePlaysUnloadedSoundtrack | src/Engine/States/BaseGameState.cs:53-57 | A switch raised inside `UpdateGameState` makes the target current at once. The old state is unloaded before its own `PlaySoundtrack`, which ends the frame |
| Host.SwitchToSelfKeepsListening | src/Engine/MainGame.cs:114-131 | A state that switches to itself during input is attached again at once, so a `GameQuit` it raises afterwards in the same input handling still requests exit |
| Host.UnloadOnExit | src/Engine/MainGame.cs:147-150 | At shutdown the current state, if any, is unloaded exactly once; with no state, nothing happens |
| Host.QuitFromCurrentStateRequestsExit | src/Engine/MainGame.cs:129-141 | The host listens to the current state's events. A `GameQuit` from that state requests exit, and any other event leaves the host unchanged |
| Host.NotifyFromCurrentState | src/Engine/States/BaseGameState.cs:69-79 | When the current state notifies an event, the host's listener gets it first, then each registered object in list order, then the sound manager. The host requests exit exactly for `GameQuit` and is otherwise unchanged |
| Host.SwitchSignalFromCurrentStateSwitches | src/Engine/MainGame.cs:109-112 | A `SwitchState` raised by the current state makes the host carry out the switch to the target |
| Host.SwitchDuringInputIsImmediate | src/Engine/MainGame.cs:157-160 | A switch raised during input handling happens at once: the old state is unloaded before the same frame's update runs on the new state |
| Host.UpdateWithOneSignal | src/Engine/MainGame.cs:157-160 | A frame in which one signal is raised during input is the input call, that signal's delivery, then the update of whichever state is current afterwards |
| Host.SignalsAfterSwitchingAwayAreDropped | src/Engine/MainGame.cs:116-119 | After a state has switched away, a `GameQuit` it raises in the same input handling does not request exit |
| Host.TwoSwitchesUnloadFirstOnce | src/Engine/MainGame.cs:114-131 | Switching to A and then to B unloads A exactly once, before B is initialised |
| Host.TwoSwitchesLoadSecondOnce | src/Engine/MainGame.cs:114-131 | Switching to A and then to a different B loads B exactly once, after B is initialised |
| Host.SwitchAll | src/Engine/MainGame.cs:102-131 | A run of switches, the first from `LoadContent` and later ones from the state-switch handler: after a non-empty run, the last target is current and the host stays valid |
| Host.SwitchLoadsOnceUnloadsPrevious | src/Engine/MainGame.cs:116-127 | One switch makes one `LoadContent` call. It makes one `UnloadContent` call if a state was current, and none otherwise |
| Host.SwitchLoadsTargetUnloadsPrevious | src/Engine/MainGame.cs:114-131 | For every state id, one switch loads it once if it is the target and not otherwise, and unloads it once if it was current and not otherwise |
| Host.SwitchAllBalancesPerState | src/Engine/MainGame.cs:109-131 | For every state id, over any run of switches, its loads plus 1 if it was current at the start equal its unloads plus 1 if it is current at the end |
| Host.RunThenExitBalances | src/Engine/MainGame.cs:114-150 | Starting with no state, after any run of switches and shutdown, a given state id has been unloaded exactly as often as it was loaded |
| Host.RunThenExitTotals | src/Engine/MainGame.cs:114-150 | Starting with no state, after any run of switches and shutdown, the total numbers of `LoadContent` and `UnloadContent` calls both equal the number of switches |
| Host.LoadsMatchUnloads | src/Engine/MainGame.cs:114-150 | Starting with no state, after any run of switches and shutdown, every state id has as many `UnloadContent` calls as `LoadContent` calls, and both totals equal the number of switches |
| GameplayInput.GetKeyboardState | src/States/Gameplay/GameplayInputMapper.cs:10-30 | Escape held iff `GameExit` is in the output; G iff `KeyOfCPressed`; H iff `KeyOfDPressed`. The output is a subsequence of [GameExit, KeyOfCPressed, KeyOfDPressed], has no duplicates, and has at most three entries |
| GameplayInput.CommandsRecoverBoundKeys | src/States/Gameplay/GameplayInputMapper.cs:12-29 | The keys behind the output commands are exactly the pressed keys among Escape, G and H |
| GameplayInput.DependsOnlyOnBoundKeys | src/States/Gameplay/GameplayInputMapper.cs:10-30 | Snapshots that agree on Escape, G and H give the identical command sequence |
| GameplayInput.UnboundKeysGiveNothing | src/States/Gameplay/GameplayInputMapper.cs:12-29 | With none of Escape, G, H held (including an empty snapshot), the output is empty |
| GameplayInput.AllBoundKeysExample | src/States/Gameplay/GameplayInputMapper.cs:12-29 | Escape, G and H held together, plus another key, give all three commands in the fixed order |

## Left out

- Scale.ScaleRectangle: uses exact rational arithmetic instead of the source's `float`. Where float rounding would move a value that lies within a float epsilon of a half-pixel boundary, or of the branch test, the source may differ by one pixel.
- Scale.ScaleRectangle: the design width and the design height must both be positive. The source divides by the design height to form the design aspect ratio, then divides the window width by that ratio. A zero design width or height is not a case the code handles.
- The `MainGame.Draw` calls (render target, clears, sprite batch begin/end, the blit into the rectangle) are graphics-device work. Only the order `Render` produces is modelled.
- The `MainGame` constructor, `GraphicsDeviceManager` settings and `ApplyChanges` are windowing setup. Only the design size (as `Scale` inputs) and the viewport size (as `Host.MainGame` fields) are kept.
- Content loading (`LoadTexture`, `LoadSound`, `LoadFont`, `ContentManager.Unload`) calls into MonoGame. Unloading appears only as an `UnloadContent` trace entry.
- `LoadContent`, `HandleInput`, `UpdateGameState` and `SetInputManager` are abstract and are defined by concrete states. They appear as trace entries and leave the object list unchanged. Only the signals they raise during `HandleInput` and `UpdateGameState` are modelled, as the two signal parameters of `Host.Update`.
- `SoundManager`, `BaseGameObject` and `InputManager` are not part of this model. They appear only as deliveries, draws and trace entries.
- Host.NotifyFromCurrentState: the deliveries and the host's calls are returned as two separate lists. The model does not record that the host's handler, and so any `Exit` call, runs before the objects are notified.
- Host.Update: requires a current state, because the source dereferences it without a null check.
- Host.SwitchGameState: the target is never null. With a null target the source would throw when initialising it.
- Object identity is datatype equality of (id, z-index). A z-index that changes while the object is registered is not modelled.
- The `_indestructible` flag is never read by the modelled code.
- `BaseTextObject` is a thin wrapper around `DrawString` with no logic of its own.
- Exceptions thrown from `LoadContent`, `Update` or `Render` are not modelled.

=== FILE: game_states.dfy ===
/**
  The shared behaviour of `BaseGameState`: initialisation, the per-frame update, the
  event fan-out, the state-switch signal, the object registry and the render order.

  The abstract members a concrete state supplies (`LoadContent`, `HandleInput`,
  `UpdateGameState`, `SetInputManager`) and the collaborators the source does not show
  (`SoundManager`, `BaseGameObject`, `InputManager`, `ContentManager`) appear only as
  trace entries.
*/
module GameStates {
  import opened Trace
  import opened Registry

  datatype BaseGameState = BaseGameState(
    id: StateId,
    viewportWidth: int,
    viewportHeight: int,
    objects: seq<GameObject>,
    debug: bool)

  /** A signal a state raises through one of its two C# events. */
  datatype Raised = RaisedSwitch(target: BaseGameState) | RaisedEvent(event: GameEvent)

  /** Who receives one delivery of `NotifyEvent`. */
  datatype Delivery =
    | ToListener(event: GameEvent)
    | ToObject(obj: ObjectId, event: GameEvent)
    | ToSoundManager(event: GameEvent)

  /** One draw call made by `Render`. */
  datatype Draw = DrawBoundingBoxes(obj: ObjectId) | DrawObject(obj: ObjectId)

  /** A state as constructed: no objects, debug drawing on (`_debug = true`). */
  function NewGameState(id: StateId): (st: BaseGameState)
    ensures st.id == id && st.objects == [] && st.debug
  {
    BaseGameState(id, 0, 0, [], true)
  }

  /** Stores the viewport size, then binds the input manager exactly once. */
  function Initialize(st: BaseGameState, viewportWidth: int, viewportHeight: int)
    : (r: (BaseGameState, seq<Call>))
    ensures r.0.viewportWidth == viewportWidth && r.0.viewportHeight == viewportHeight
    ensures r.0.id == st.id && r.0.objects == st.objects && r.0.debug == st.debug
    ensures |r.1| == 1 && Occurrences(r.1, SetInputManager(st.id)) == 1
  {
    (st.(viewportWidth := viewportWidth, viewportHeight := viewportHeight),
     [SetInputManager(st.id)])
  }

  /** The per-frame update's own calls: the state's logic, then its soundtrack, once each.
      Signals raised inside the state's logic are acted on by the host between the two. */
  function Update(st: BaseGameState): (t: seq<Call>)
    ensures |t| == 2
    ensures Occurrences(t, UpdateGameState(st.id)) == 1
    ensures Occurrences(t, PlaySoundtrack(st.id)) == 1
    ensures Precedes(t, UpdateGameState(st.id), PlaySoundtrack(st.id))
  {
    var t := [UpdateGameState(st.id), PlaySoundtrack(st.id)];
    assert t[0] == UpdateGameState(st.id) && t[1] == PlaySoundtrack(st.id);
    t
  }

  /** Number of listener deliveries at the head of a fan-out. */
  function ListenerCount(listenerAttached: bool): nat
  {
    if listenerAttached then 1 else 0
  }

  /**
    Delivers `e` to the event-notification listener when one is attached, then to every
    registered object in list order, then to the sound manager.
  */
  method NotifyEvent(st: BaseGameState, listenerAttached: bool, e: GameEvent)
    returns (ds: seq<Delivery>)
    ensures |ds| == ListenerCount(listenerAttached) + |st.objects| + 1
    ensures listenerAttached ==> ds[0] == ToListener(e)
    ensures forall i :: 0 <= i < |st.objects| ==>
      ds[ListenerCount(listenerAttached) + i] == ToObject(st.objects[i].id, e)
    ensures ds[|ds| - 1] == ToSoundManager(e)
  {
    ds := if listenerAttached then [ToListener(e)] else [];
    var k := |ds|;
    var i := 0;
    while i < |st.objects|
      invariant 0 <= i <= |st.objects|
      invariant k == ListenerCount(listenerAttached)
      invariant |ds| == k + i
      invariant listenerAttached ==> ds[0] == ToListener(e)
      invariant forall j :: 0 <= j < i ==> ds[k + j] == ToObject(st.objects[j].id, e)
    {
      ds := ds + [ToObject(st.objects[i].id, e)];
      i := i + 1;
    }
    ds := ds + [ToSoundManager(e)];
  }

  /** Raises the state-switch signal with `target`; the state itself is left as it is. */
  function SwitchState(st: BaseGameState, target: BaseGameState): (r: (BaseGameState, Raised))
    ensures r.0 == st
    ensures r.1.RaisedSwitch? && r.1.target == target
  {
    (st, RaisedSwitch(target))
  }

  /** Appends `o` to the end of the object list. */
  function AddGameObject(st: BaseGameState, o: GameObject): (r: BaseGameState)
    ensures |r.objects| == |st.objects| + 1
    ensures r.objects[..|st.objects|] == st.objects && r.objects[|st.objects|] == o
    ensures r.(objects := st.objects) == st
  {
    st.(objects := st.objects + [o])
  }

  /** Removes the first occurrence of `o`; nothing changes when `o` is not registered. */
  function RemoveGameObject(st: BaseGameState, o: GameObject): (r: BaseGameState)
    ensures o !in st.objects ==> r == st
    ensures o in st.objects ==>
      var i := FirstIndex(st.objects, o);
      r.objects == st.objects[..i] + st.objects[i + 1..]
    ensures r.(objects := st.objects) == st
  {
    st.(objects := RemoveFirst(st.objects, o))
  }

  /** Registering an absent object and removing it again gives back the same state. */
  lemma RemoveUndoesAdd(st: BaseGameState, o: GameObject)
    requires o !in st.objects
    ensures RemoveGameObject(AddGameObject(st, o), o) == st
  {
  }

  /** The draw calls made for one object: its bounding boxes first when debugging. */
  function DrawsFor(o: GameObject, debug: bool): seq<Draw>
  {
    if debug then [DrawBoundingBoxes(o.id), DrawObject(o.id)] else [DrawObject(o.id)]
  }

  /** `draws` draws the first `n` objects of `order` once each, in that order; with `debug`
      set each object's bounding boxes come immediately before it, and otherwise none are
      drawn. */
  predicate DrawnUpTo(draws: seq<Draw>, order: seq<GameObject>, n: nat, debug: bool)
    requires n <= |order|
  {
    if debug then
      && |draws| == 2 * n
      && forall i :: 0 <= i < n ==>
        draws[2 * i] == DrawBoundingBoxes(order[i].id) && draws[2 * i + 1] == DrawObject(order[i].id)
    else
      && |draws| == n
      && forall i :: 0 <= i < n ==> draws[i] == DrawObject(order[i].id)
  }

  /** `draws` draws every object of `order`, as `DrawnUpTo` describes. */
  predicate DrawnInOrder(draws: seq<Draw>, order: seq<GameObject>, debug: bool)
  {
    DrawnUpTo(draws, order, |order|, debug)
  }

  /**
    Draws the objects in stable z-index order. With `debug` set each object is preceded by
    its bounding boxes; without it no bounding box is drawn.
  */
  method Render(st: BaseGameState) returns (draws: seq<Draw>, order: seq<GameObject>)
    ensures StableSortOf(order, st.objects)
    ensures multiset(order) == multiset(st.objects)
    ensures DrawnInOrder(draws, order, st.debug)
  {
    order := SortByZ(st.objects);
    SortByZIsStable(st.objects);
    draws := [];
    var i := 0;
    while i < |order|
      invariant 0 <= i <= |order|
      invariant DrawnUpTo(draws, order, i, st.debug)
    {
      draws := draws + DrawsFor(order[i], st.debug);
      i := i + 1;
    }
  }
}

=== FILE: gameplay_input.dfy ===
/**
  `GameplayInputMapper.GetKeyboardState`: the gameplay state's key bindings, from the set
  of keys held down in one keyboard snapshot to the commands for that frame.
*/
module GameplayInput {

  /** The keys the mapper looks at, and every other key. */
  datatype Key = Escape | G | H | OtherKey(code: nat)

  /** `GameplayInputCommand`. G yields `KeyOfCPressed` and H yields `KeyOfDPressed`. */
  datatype Command = GameExit | KeyOfCPressed | KeyOfDPressed

  /** The order in which the mapper emits commands. */
  const AllCommands: seq<Command> := [GameExit, KeyOfCPressed, KeyOfDPressed]

  /** The key that produces each command. */
  function KeyFor(c: Command): Key
  {
    match c
    case GameExit => Escape
    case KeyOfCPressed => G
    case KeyOfDPressed => H
  }

  /** `a` is `b` with some entries left out. */
  predicate IsSubsequence(a: seq<Command>, b: seq<Command>)
  {
    if |a| == 0 then true
    else if |b| == 0 then false
    else if a[0] == b[0] then IsSubsequence(a[1..], b[1..])
    else IsSubsequence(a, b[1..])
  }

  predicate NoDuplicates(s: seq<Command>)
  {
    forall i, j :: 0 <= i < j < |s| ==> s[i] != s[j]
  }

  function GetKeyboardState(pressed: set<Key>): (commands: seq<Command>)
    ensures forall c :: c in commands <==> KeyFor(c) in pressed
    ensures IsSubsequence(commands, AllCommands)
    ensures NoDuplicates(commands) && |commands| <= 3
  {
    var exit := if Escape in pressed then [GameExit] else [];
    var c := if G in pressed then [KeyOfCPressed] else [];
    var d := if H in pressed then [KeyOfDPressed] else [];
    assert IsSubsequence(exit + c + d, AllCommands) by {
      SubsequenceExtend([], [], KeyOfDPressed, H in pressed);
      assert d == d + [];
      SubsequenceExtend(d, [KeyOfDPressed], KeyOfCPressed, G in pressed);
      SubsequenceExtend(c + d, [KeyOfCPressed, KeyOfDPressed], GameExit, Escape in pressed);
      assert exit + c + d == exit + (c + d);
    }
    exit + c + d
  }

  /** Putting `x` in front of the longer sequence, and optionally of the shorter one too,
      keeps the subsequence relation. */
  lemma SubsequenceExtend(a: seq<Command>, b: seq<Command>, x: Command, keep: bool)
    requires IsSubsequence(a, b) && x !in a
    ensures IsSubsequence((if keep then [x] else []) + a, [x] + b)
  {
    var b' := [x] + b;
    assert b'[1..] == b;
    if keep {
      assert ([x] + a)[1..] == a;
    } else if |a| > 0 {
      assert a[0] in a;
      assert [] + a == a;
      assert IsSubsequence(a, b'[1..]);
    }
  }

  /** The keys behind a command sequence: only ever bound keys. */
  function KeysOf(commands: seq<Command>): (keys: set<Key>)
    ensures keys <= {Escape, G, H}
  {
    set i | 0 <= i < |commands| :: KeyFor(commands[i])
  }

  /** The commands tell exactly which of Escape, G and H were held: nothing else of the
      snapshot is read. */
  lemma CommandsRecoverBoundKeys(pressed: set<Key>)
    ensures KeysOf(GetKeyboardState(pressed)) == pressed * {Escape, G, H}
  {
    var cs := GetKeyboardState(pressed);
    forall k | k in pressed * {Escape, G, H} ensures k in KeysOf(cs) {
      var c := if k == Escape then GameExit else if k == G then KeyOfCPressed else KeyOfDPressed;
      assert KeyFor(c) == k && c in cs;
      var i :| 0 <= i < |cs| && cs[i] == c;
    }
  }

  /** Snapshots that agree on Escape, G and H give the same command sequence. */
  lemma DependsOnlyOnBoundKeys(p1: set<Key>, p2: set<Key>)
    requires p1 * {Escape, G, H} == p2 * {Escape, G, H}
    ensures GetKeyboardState(p1) == GetKeyboardState(p2)
  {
    assert Escape in p1 <==> Escape in p1 * {Escape, G, H};
    assert G in p1 <==> G in p1 * {Escape, G, H};
    assert H in p1 <==> H in p1 * {Escape, G, H};
  }

  /** No key the mapper binds: no command. */
  lemma UnboundKeysGiveNothing(pressed: set<Key>)
    requires Escape !in pressed && G !in pressed && H !in pressed
    ensures GetKeyboardState(pressed) == []
  {
  }

  /** Escape, G and H held together give all three commands in their fixed order. */
  lemma AllBoundKeysExample()
    ensures GetKeyboardState({H, OtherKey(7), G, Escape}) == [GameExit, KeyOfCPressed, KeyOfDPressed]
  {
  }
}

=== FILE: main_game.dfy ===
/**
  The engine shell, `MainGame`: it owns the single current game state, switches states
  in a fixed teardown/set-up order, listens to the current state's two events, and drives
  the per-frame input and update calls.

  C# event subscription is reduced to the set of (state, event) pairs the host's handlers
  are attached to; a signal a state raises reaches the host only through such a pair.
*/
module Host {
  import opened Wrappers
  import opened Trace
  import GameStates

  datatype Subscription = Subscription(state: StateId, signal: Signal)

  datatype MainGame = MainGame(
    viewportWidth: int,
    viewportHeight: int,
    current: Option<GameStates.BaseGameState>,
    subscriptions: set<Subscription>,
    exitRequested: bool)

  /** The host's two handlers attached to the state `id`. */
  function SubscriptionsOf(id: StateId): set<Subscription>
  {
    {Subscription(id, StateSwitched), Subscription(id, EventNotification)}
  }

  /** The host listens to both events of the current state and to nothing else. */
  predicate Valid(g: MainGame)
  {
    g.subscriptions == if g.current.Some? then SubscriptionsOf(g.current.value.id) else {}
  }

  /** The host before its first state: nothing current, nothing subscribed, not exiting. */
  function NewMainGame(viewportWidth: int, viewportHeight: int): (g: MainGame)
    ensures Valid(g) && g.current.None? && !g.exitRequested
  {
    MainGame(viewportWidth, viewportHeight, None, {}, false)
  }

  /** Whether the current state's `NotifyEvent` reaches the host's listener. */
  predicate ListensToEvents(g: MainGame, id: StateId)
  {
    Subscription(id, EventNotification) in g.subscriptions
  }

  /** Detaching the old state's handlers, then unloading it. */
  function TeardownCalls(prev: StateId): seq<Call>
  {
    [Unsubscribe(prev, StateSwitched), Unsubscribe(prev, EventNotification), UnloadContent(prev)]
  }

  /** Initialising the new state (which binds its input manager), loading its content,
      then attaching the host's handlers. */
  function SetupCalls(target: GameStates.BaseGameState, viewportWidth: int, viewportHeight: int): seq<Call>
  {
    [Initialize(target.id, viewportWidth, viewportHeight)]
    + GameStates.Initialize(target, viewportWidth, viewportHeight).1
    + [LoadContent(target.id), Subscribe(target.id, StateSwitched), Subscribe(target.id, EventNotification)]
  }

  /**
    Replaces the current state by `target`: detaches both handlers from the old state and
    unloads it; then initialises the target with the viewport size, loads its content and
    attaches both handlers to it. Switching to the current state itself is not rejected.
  */
  function SwitchGameState(g: MainGame, target: GameStates.BaseGameState): (r: (MainGame, seq<Call>))
    ensures r.0.current.Some? && r.0.current.value.id == target.id
    ensures r.0.current.value.objects == target.objects
    ensures r.0.current.value.viewportWidth == g.viewportWidth
    ensures r.0.current.value.viewportHeight == g.viewportHeight
    ensures r.0.viewportWidth == g.viewportWidth && r.0.viewportHeight == g.viewportHeight
    ensures r.0.exitRequested == g.exitRequested
    ensures Valid(g) ==> Valid(r.0)
  {
    var teardown := if g.current.Some? then TeardownCalls(g.current.value.id) else [];
    var detached :=
      if g.current.Some? then g.subscriptions - SubscriptionsOf(g.current.value.id) else g.subscriptions;
    var init := GameStates.Initialize(target, g.viewportWidth, g.viewportHeight);
    (g.(current := Some(init.0), subscriptions := detached + SubscriptionsOf(target.id)),
     teardown + SetupCalls(target, g.viewportWidth, g.viewportHeight))
  }

  /** The five set-up calls, spelled out. */
  lemma SetupCallsListed(target: GameStates.BaseGameState, viewportWidth: int, viewportHeight: int)
    ensures SetupCalls(target, viewportWidth, viewportHeight)
      == [Initialize(target.id, viewportWidth, viewportHeight), SetInputManager(target.id),
          LoadContent(target.id), Subscribe(target.id, StateSwitched), Subscribe(target.id, EventNotification)]
  {
  }

  /** With a state current, the eight calls of a switch, spelled out. */
  lemma SwitchTraceListed(g: MainGame, target: GameStates.BaseGameState)
    requires g.current.Some?
    ensures var prev := g.current.value.id;
      SwitchGameState(g, target).1
      == [Unsubscribe(prev, StateSwitched), Unsubscribe(prev, EventNotification), UnloadContent(prev),
          Initialize(target.id, g.viewportWidth, g.viewportHeight), SetInputManager(target.id),
          LoadContent(target.id), Subscribe(target.id, StateSwitched), Subscribe(target.id, EventNotification)]
  {
    SetupCallsListed(target, g.viewportWidth, g.viewportHeight);
    SwitchTraceSplits(g, target);
  }

  /** With a state current, its handlers are detached and it is unloaded exactly once,
      strictly before the new state is initialised. */
  lemma SwitchTearsDownBeforeSetUp(g: MainGame, target: GameStates.BaseGameState)
    requires g.current.Some?
    ensures var t := SwitchGameState(g, target).1;
      var prev := g.current.value.id;
      && Occurrences(t, UnloadContent(prev)) == 1
      && Precedes(t, Unsubscribe(prev, StateSwitched), UnloadContent(prev))
      && Precedes(t, Unsubscribe(prev, EventNotification), UnloadContent(prev))
      && Precedes(t, UnloadContent(prev), Initialize(target.id, g.viewportWidth, g.viewportHeight))
  {
    SwitchLoadsTargetUnloadsPrevious(g, target, g.current.value.id);
    SwitchTraceListed(g, target);
    TeardownOrder(g.current.value.id, target.id, g.viewportWidth, g.viewportHeight);
  }

  /** The teardown order, read off the eight calls of a switch. */
  lemma TeardownOrder(prev: StateId, next: StateId, viewportWidth: int, viewportHeight: int)
    ensures var t := [Unsubscribe(prev, StateSwitched), Unsubscribe(prev, EventNotification), UnloadContent(prev),
                      Initialize(next, viewportWidth, viewportHeight), SetInputManager(next),
                      LoadContent(next), Subscribe(next, StateSwitched), Subscribe(next, EventNotification)];
      && Precedes(t, Unsubscribe(prev, StateSwitched), UnloadContent(prev))
      && Precedes(t, Unsubscribe(prev, EventNotification), UnloadContent(prev))
      && Precedes(t, UnloadContent(prev), Initialize(next, viewportWidth, viewportHeight))
  {
    var t := [Unsubscribe(prev, StateSwitched), Unsubscribe(prev, EventNotification), UnloadContent(prev),
              Initialize(next, viewportWidth, viewportHeight), SetInputManager(next),
              LoadContent(next), Subscribe(next, StateSwitched), Subscribe(next, EventNotification)];
    PrecedesAt(t, 0, 2);
    PrecedesAt(t, 1, 2);
    PrecedesAt(t, 2, 3);
  }

  /** The new state is initialised once and loads its content once. */
  lemma SwitchSetsUpOnce(g: MainGame, target: GameStates.BaseGameState)
    ensures var t := SwitchGameState(g, target).1;
      && Occurrences(t, Initialize(target.id, g.viewportWidth, g.viewportHeight)) == 1
      && Occurrences(t, LoadContent(target.id)) == 1
  {
  }

  /** Initialising binds the input manager, then content is loaded, and only then are the
      host's handlers attached to the new state. */
  lemma SwitchSetsUpInOrder(g: MainGame, target: GameStates.BaseGameState)
    ensures var t := SwitchGameState(g, target).1;
      && Precedes(t, Initialize(target.id, g.viewportWidth, g.viewportHeight), SetInputManager(target.id))
      && Precedes(t, SetInputManager(target.id), LoadContent(target.id))
      && Precedes(t, Initialize(target.id, g.viewportWidth, g.viewportHeight), LoadContent(target.id))
      && Precedes(t, LoadContent(target.id), Subscribe(target.id, StateSwitched))
      && Precedes(t, LoadContent(target.id), Subscribe(target.id, EventNotification))
  {
    var t := SwitchGameState(g, target).1;
    var setup := SetupCalls(target, g.viewportWidth, g.viewportHeight);
    SetupCallsListed(target, g.viewportWidth, g.viewportHeight);
    var teardown := if g.current.Some? then TeardownCalls(g.current.value.id) else [];
    assert t == teardown + setup;
    var k := |teardown|;
    assert t[k] == setup[0] && t[k + 1] == setup[1] && t[k + 2] == setup[2];
    assert t[k + 3] == setup[3] && t[k + 4] == setup[4];
  }

  /** The first switch, with no state current, detaches and unloads nothing. */
  lemma FirstSwitchUnloadsNothing(g: MainGame, target: GameStates.BaseGameState)
    requires g.current.None?
    ensures forall c :: c in SwitchGameState(g, target).1 ==> !c.UnloadContent? && !c.Unsubscribe?
  {
  }

  /** The handler for the current state's event notifications: `GameQuit` asks the game to
      exit; every other event is ignored. */
  function OnEventNotification(g: MainGame, e: GameEvent): (r: (MainGame, seq<Call>))
    ensures r.0.exitRequested <==> g.exitRequested || e == GameQuit
    ensures r.0.(exitRequested := g.exitRequested) == g
    ensures Exit in r.1 <==> e == GameQuit
  {
    match e
    case GameQuit => (g.(exitRequested := true), [Exit])
    case OtherEvent(_) => (g, [])
  }

  /** A signal raised by state `sender` reaches the host only if the host's handler for
      that event is attached to `sender`; otherwise nothing happens. */
  function Deliver(g: MainGame, sender: StateId, raised: GameStates.Raised): (r: (MainGame, seq<Call>))
    ensures raised.RaisedSwitch? && Subscription(sender, StateSwitched) !in g.subscriptions ==> r == (g, [])
    ensures raised.RaisedEvent? && Subscription(sender, EventNotification) !in g.subscriptions ==> r == (g, [])
    ensures Valid(g) ==> Valid(r.0)
    ensures g.current.Some? ==> r.0.current.Some?
  {
    match raised
    case RaisedSwitch(target) =>
      if Subscription(sender, StateSwitched) in g.subscriptions then SwitchGameState(g, target) else (g, [])
    case RaisedEvent(e) =>
      if Subscription(sender, EventNotification) in g.subscriptions then OnEventNotification(g, e) else (g, [])
  }

  /** Delivers, in order, the signals `sender` raised. */
  function DeliverAll(g: MainGame, sender: StateId, raised: seq<GameStates.Raised>): (r: (MainGame, seq<Call>))
    ensures Valid(g) ==> Valid(r.0)
    ensures g.current.Some? ==> r.0.current.Some?
    ensures g.exitRequested ==> r.0.exitRequested
    decreases |raised|
  {
    if |raised| == 0 then (g, [])
    else
      var first := Deliver(g, sender, raised[0]);
      var rest := DeliverAll(first.0, sender, raised[1..]);
      (rest.0, first.1 + rest.1)
  }

  /** A single signal, delivered through `DeliverAll`, is delivered through `Deliver`. */
  lemma DeliverAllOne(g: MainGame, sender: StateId, raised: GameStates.Raised)
    ensures DeliverAll(g, sender, [raised]) == Deliver(g, sender, raised)
  {
    var d := Deliver(g, sender, raised);
    assert [raised][1..] == [];
    assert DeliverAll(g, sender, [raised]) == (d.0, d.1 + []);
    assert d.1 + [] == d.1;
  }

  /** The state a frame's `Update` runs on: whichever is current once the signals raised
      during input have been delivered. */
  function UpdatedState(g: MainGame, raisedInInput: seq<GameStates.Raised>): GameStates.BaseGameState
    requires g.current.Some?
  {
    DeliverAll(g, g.current.value.id, raisedInInput).0.current.value
  }

  /**
    One frame's update. The current state handles input; the signals it raises meanwhile
    (`raisedInInput`) are delivered at once. `Update` then runs on whichever state is
    current after that: its own `UpdateGameState` may raise signals too
    (`raisedInUpdate`, delivered with that state as sender), and that same state's
    soundtrack is played last, even when a switch it raised has unloaded it.
  */
  function Update(g: MainGame, raisedInInput: seq<GameStates.Raised>, raisedInUpdate: seq<GameStates.Raised>)
    : (r: (MainGame, seq<Call>))
    requires g.current.Some?
    ensures r.0.current.Some?
    ensures Valid(g) ==> Valid(r.0)
    ensures |r.1| >= 3 && r.1[0] == HandleInput(g.current.value.id)
    ensures var u := UpdatedState(g, raisedInInput).id;
      r.1[|r.1| - 1] == PlaySoundtrack(u) && Precedes(r.1, UpdateGameState(u), PlaySoundtrack(u))
    ensures raisedInUpdate == [] ==>
      && r.1[|r.1| - 2] == UpdateGameState(r.0.current.value.id)
      && r.1[|r.1| - 1] == PlaySoundtrack(r.0.current.value.id)
    ensures raisedInInput == [] && raisedInUpdate == [] ==> r.0 == g && |r.1| == 3
  {
    var s := g.current.value;
    var input := DeliverAll(g, s.id, raisedInInput);
    var u := input.0.current.value;
    var during := DeliverAll(input.0, u.id, raisedInUpdate);
    var own := GameStates.Update(u);
    assert own == [UpdateGameState(u.id), PlaySoundtrack(u.id)];
    var t := [HandleInput(s.id)] + input.1 + [own[0]] + during.1 + [own[1]];
    assert t[1 + |input.1|] == UpdateGameState(u.id) && t[|t| - 1] == PlaySoundtrack(u.id);
    (during.0, t)
  }

  /** At shutdown the current state, if any, is unloaded once. */
  function UnloadOnExit(g: MainGame): (t: seq<Call>)
    ensures g.current.None? ==> t == []
    ensures g.current.Some? ==> |t| == 1 && Occurrences(t, UnloadContent(g.current.value.id)) == 1
  {
    if g.current.Some? then [UnloadContent(g.current.value.id)] else []
  }

  /** The current state of a valid host has the host as its event listener, and a
      `GameQuit` it raises requests exit while any other event leaves the host as it was. */
  lemma QuitFromCurrentStateRequestsExit(g: MainGame, e: GameEvent)
    requires Valid(g) && g.current.Some?
    ensures ListensToEvents(g, g.current.value.id)
    ensures var r := Deliver(g, g.current.value.id, GameStates.RaisedEvent(e)).0;
      r.exitRequested <==> g.exitRequested || e == GameQuit
    ensures e != GameQuit ==> Deliver(g, g.current.value.id, GameStates.RaisedEvent(e)).0 == g
  {
  }

  /**
    The current state notifying `e`: its fan-out reaches the host's listener first (the host
    is attached to the current state), then its objects and sound manager, and the host's
    handler requests exit exactly for `GameQuit`.
  */
  method NotifyFromCurrentState(g: MainGame, e: GameEvent)
    returns (r: MainGame, t: seq<Call>, ds: seq<GameStates.Delivery>)
    requires Valid(g) && g.current.Some?
    ensures |ds| == |g.current.value.objects| + 2
    ensures ds[0] == GameStates.ToListener(e)
    ensures forall i :: 0 <= i < |g.current.value.objects| ==>
      ds[1 + i] == GameStates.ToObject(g.current.value.objects[i].id, e)
    ensures ds[|ds| - 1] == GameStates.ToSoundManager(e)
    ensures r.exitRequested <==> g.exitRequested || e == GameQuit
    ensures r.(exitRequested := g.exitRequested) == g
    ensures Exit in t <==> e == GameQuit
  {
    var st := g.current.value;
    QuitFromCurrentStateRequestsExit(g, e);
    ds := GameStates.NotifyEvent(st, ListensToEvents(g, st.id), e);
    var handled := Deliver(g, st.id, GameStates.RaisedEvent(e));
    r, t := handled.0, handled.1;
  }

  /** `SwitchState` on the current state of a valid host makes the target current. */
  lemma SwitchSignalFromCurrentStateSwitches(g: MainGame, target: GameStates.BaseGameState)
    requires Valid(g) && g.current.Some?
    ensures var raised := GameStates.SwitchState(g.current.value, target).1;
      var r := Deliver(g, g.current.value.id, raised);
      r == SwitchGameState(g, target) && r.0.current.value.id == target.id
  {
  }

  /**
    A switch raised while the current state handles its input is carried out at once, not
    at the end of the frame: the old state is unloaded and the same frame's `Update` runs
    on the new state.
  */
  lemma SwitchDuringInputIsImmediate(g: MainGame, target: GameStates.BaseGameState)
    requires Valid(g) && g.current.Some?
    ensures var r := Update(g, [GameStates.RaisedSwitch(target)], []);
      && r.0.current.value.id == target.id
      && Precedes(r.1, UnloadContent(g.current.value.id), UpdateGameState(target.id))
  {
    var s := g.current.value;
    var sw := SwitchGameState(g, target);
    var r := Update(g, [GameStates.RaisedSwitch(target)], []);
    UpdateWithOneSignal(g, GameStates.RaisedSwitch(target));
    assert Deliver(g, s.id, GameStates.RaisedSwitch(target)) == sw;
    var teardown := TeardownCalls(s.id);
    var rest := SetupCalls(target, g.viewportWidth, g.viewportHeight)
      + GameStates.Update(sw.0.current.value);
    assert r.1 == [HandleInput(s.id)] + teardown + rest by {
      assert sw.1 == teardown + SetupCalls(target, g.viewportWidth, g.viewportHeight);
    }
    assert r.1[3] == UnloadContent(s.id);
    assert r.1[|r.1| - 2] == UpdateGameState(target.id);
  }

  /** One frame with a single signal raised during input: that signal's delivery, framed by
      the input call and the update of whichever state is then current. */
  lemma UpdateWithOneSignal(g: MainGame, raised: GameStates.Raised)
    requires g.current.Some?
    ensures var d := Deliver(g, g.current.value.id, raised);
      d.0.current.Some?
      && Update(g, [raised], [])
         == (d.0, [HandleInput(g.current.value.id)] + d.1 + GameStates.Update(d.0.current.value))
  {
    var d := Deliver(g, g.current.value.id, raised);
    DeliverAllOne(g, g.current.value.id, raised);
    var u := d.0.current.value;
    assert DeliverAll(d.0, u.id, []) == (d.0, []);
    var own := GameStates.Update(u);
    assert own == [UpdateGameState(u.id), PlaySoundtrack(u.id)];
    assert [HandleInput(g.current.value.id)] + d.1 + [own[0]] + [] + [own[1]]
      == [HandleInput(g.current.value.id)] + d.1 + own;
  }

  /**
    A switch raised from inside the current state's `UpdateGameState` is also carried out
    at once, so the state is detached and unloaded before its `Update` goes on to play its
    soundtrack: the frame ends with the soundtrack of the state just unloaded.
  */
  lemma SwitchDuringUpdatePlaysUnloadedSoundtrack(g: MainGame, target: GameStates.BaseGameState)
    requires Valid(g) && g.current.Some?
    ensures var r := Update(g, [], [GameStates.RaisedSwitch(target)]);
      && r.0.current.value.id == target.id
      && r.1[|r.1| - 1] == PlaySoundtrack(g.current.value.id)
      && Precedes(r.1, UnloadContent(g.current.value.id), PlaySoundtrack(g.current.value.id))
  {
    var s := g.current.value;
    var sw := SwitchGameState(g, target);
    assert DeliverAll(g, s.id, []) == (g, []);
    DeliverAllOne(g, s.id, GameStates.RaisedSwitch(target));
    assert Deliver(g, s.id, GameStates.RaisedSwitch(target)) == sw;
    var r := Update(g, [], [GameStates.RaisedSwitch(target)]);
    var own := GameStates.Update(s);
    assert own == [UpdateGameState(s.id), PlaySoundtrack(s.id)];
    SwitchTraceListed(g, target);
    assert r.1 == [HandleInput(s.id)] + [] + [own[0]] + sw.1 + [own[1]];
    assert r.1[4] == UnloadContent(s.id);
    assert r.1[|r.1| - 1] == PlaySoundtrack(s.id);
  }

  /**
    A state that switches to itself during input is attached again at once, so a `GameQuit`
    it raises afterwards in the same call still requests exit.
  */
  lemma SwitchToSelfKeepsListening(g: MainGame, target: GameStates.BaseGameState)
    requires Valid(g) && g.current.Some?
    requires target.id == g.current.value.id
    ensures Update(g, [GameStates.RaisedSwitch(target), GameStates.RaisedEvent(GameQuit)], []).0.exitRequested
  {
    var s := g.current.value;
    var raised := [GameStates.RaisedSwitch(target), GameStates.RaisedEvent(GameQuit)];
    var sw := SwitchGameState(g, target);
    assert Valid(sw.0);
    assert Subscription(s.id, EventNotification) in sw.0.subscriptions;
    assert raised[1..] == [GameStates.RaisedEvent(GameQuit)];
    DeliverAllOne(sw.0, s.id, GameStates.RaisedEvent(GameQuit));
    assert Deliver(sw.0, s.id, GameStates.RaisedEvent(GameQuit)).0.exitRequested;
  }

  /**
    Once the current state has switched away during its input handling, the host no longer
    listens to it: a `GameQuit` it raises afterwards in the same call does not request exit.
  */
  lemma SignalsAfterSwitchingAwayAreDropped(g: MainGame, target: GameStates.BaseGameState)
    requires Valid(g) && g.current.Some? && !g.exitRequested
    requires target.id != g.current.value.id
    ensures !Update(g, [GameStates.RaisedSwitch(target), GameStates.RaisedEvent(GameQuit)], []).0.exitRequested
  {
    var s := g.current.value;
    var raised := [GameStates.RaisedSwitch(target), GameStates.RaisedEvent(GameQuit)];
    var sw := SwitchGameState(g, target);
    assert Valid(sw.0);
    assert Subscription(s.id, EventNotification) !in sw.0.subscriptions;
    assert raised[1..] == [GameStates.RaisedEvent(GameQuit)];
    assert Deliver(sw.0, s.id, GameStates.RaisedEvent(GameQuit)) == (sw.0, []);
    assert raised[1..][1..] == [];
    assert DeliverAll(sw.0, s.id, raised[1..]) == (sw.0, [] + []);
  }

  /** `Precedes` survives putting calls in front. */
  lemma PrecedesAfterPrefix(a: seq<Call>, b: seq<Call>, x: Call, y: Call)
    requires Precedes(b, x, y)
    ensures Precedes(a + b, x, y)
  {
    var i, j :| 0 <= i < j < |b| && b[i] == x && b[j] == y;
    assert (a + b)[|a| + i] == x && (a + b)[|a| + j] == y;
  }

  /** A call that only the second part makes, once and after `x`, does so in the whole. */
  lemma OnceInSecondPart(a: seq<Call>, b: seq<Call>, c: Call, x: Call)
    requires Occurrences(a, c) == 0 && Occurrences(b, c) == 1
    ensures Occurrences(a + b, c) == 1
    ensures Precedes(b, x, c) ==> Precedes(a + b, x, c)
    ensures Precedes(b, c, x) ==> Precedes(a + b, c, x)
  {
    OccurrencesAppend(a, b, c);
    if Precedes(b, x, c) {
      PrecedesAfterPrefix(a, b, x, c);
    }
    if Precedes(b, c, x) {
      PrecedesAfterPrefix(a, b, c, x);
    }
  }

  /**
    Switching from nothing to `first` and then to `second`: `first` is unloaded exactly
    once over the two switches, and before `second` is initialised.
  */
  lemma TwoSwitchesUnloadFirstOnce(g: MainGame, first: GameStates.BaseGameState, second: GameStates.BaseGameState)
    requires g.current.None?
    ensures var r1 := SwitchGameState(g, first);
      var r2 := SwitchGameState(r1.0, second);
      && Occurrences(r1.1 + r2.1, UnloadContent(first.id)) == 1
      && Precedes(r1.1 + r2.1, UnloadContent(first.id), Initialize(second.id, g.viewportWidth, g.viewportHeight))
  {
    var r1 := SwitchGameState(g, first);
    var r2 := SwitchGameState(r1.0, second);
    var init := Initialize(second.id, g.viewportWidth, g.viewportHeight);
    var unload := UnloadContent(first.id);
    SwitchLoadsTargetUnloadsPrevious(g, first, first.id);
    SwitchLoadsTargetUnloadsPrevious(r1.0, second, first.id);
    SwitchTearsDownBeforeSetUp(r1.0, second);
    OnceInSecondPart(r1.1, r2.1, unload, init);
  }

  /**
    Switching from nothing to `first` and then to another state `second`: `second` loads
    its content exactly once over the two switches, after being initialised.
  */
  lemma TwoSwitchesLoadSecondOnce(g: MainGame, first: GameStates.BaseGameState, second: GameStates.BaseGameState)
    requires g.current.None?
    requires first.id != second.id
    ensures var r1 := SwitchGameState(g, first);
      var r2 := SwitchGameState(r1.0, second);
      && Occurrences(r1.1 + r2.1, LoadContent(second.id)) == 1
      && Precedes(r1.1 + r2.1, Initialize(second.id, g.viewportWidth, g.viewportHeight), LoadContent(second.id))
  {
    var r1 := SwitchGameState(g, first);
    var r2 := SwitchGameState(r1.0, second);
    var init := Initialize(second.id, g.viewportWidth, g.viewportHeight);
    var load := LoadContent(second.id);
    SwitchLoadsTargetUnloadsPrevious(g, first, second.id);
    SwitchLoadsTargetUnloadsPrevious(r1.0, second, second.id);
    SwitchSetsUpInOrder(r1.0, second);
    OnceInSecondPart(r1.1, r2.1, load, init);
  }

  /** A run of `SwitchGameState` calls: the first from `LoadContent`, later ones made by the
      state-switch handler. */
  function SwitchAll(g: MainGame, targets: seq<GameStates.BaseGameState>): (r: (MainGame, seq<Call>))
    ensures |targets| > 0 ==> r.0.current.Some? && r.0.current.value.id == targets[|targets| - 1].id
    ensures |targets| == 0 ==> r == (g, [])
    ensures Valid(g) ==> Valid(r.0)
    decreases |targets|
  {
    if |targets| == 0 then (g, [])
    else
      var first := SwitchGameState(g, targets[0]);
      var rest := SwitchAll(first.0, targets[1..]);
      (rest.0, first.1 + rest.1)
  }

  /** One switch loads one state, and unloads one exactly when a state was current. */
  lemma SwitchLoadsOnceUnloadsPrevious(g: MainGame, target: GameStates.BaseGameState)
    ensures CountWhere(SwitchGameState(g, target).1, IsLoad) == 1
    ensures CountWhere(SwitchGameState(g, target).1, IsUnload) == if g.current.Some? then 1 else 0
  {
    var setup := SetupCalls(target, g.viewportWidth, g.viewportHeight);
    SetupCallsListed(target, g.viewportWidth, g.viewportHeight);
    CountWhereOne(setup, IsLoad, 2);
    CountWhereNone(setup, IsUnload);
    if g.current.Some? {
      var teardown := TeardownCalls(g.current.value.id);
      CountWhereNone(teardown, IsLoad);
      CountWhereOne(teardown, IsUnload, 2);
      CountWhereAppend(teardown, setup, IsLoad);
      CountWhereAppend(teardown, setup, IsUnload);
    } else {
      assert SwitchGameState(g, target).1 == [] + setup == setup;
    }
  }

  lemma {:induction false} SwitchAllCounts(g: MainGame, targets: seq<GameStates.BaseGameState>)
    ensures var r := SwitchAll(g, targets);
      && CountWhere(r.1, IsLoad) == |targets|
      && CountWhere(r.1, IsUnload) + (if r.0.current.Some? then 1 else 0)
         == |targets| + (if g.current.Some? then 1 else 0)
    decreases |targets|
  {
    if |targets| > 0 {
      var first := SwitchGameState(g, targets[0]);
      var rest := SwitchAll(first.0, targets[1..]);
      SwitchLoadsOnceUnloadsPrevious(g, targets[0]);
      SwitchAllCounts(first.0, targets[1..]);
      CountWhereAppend(first.1, rest.1, IsLoad);
      CountWhereAppend(first.1, rest.1, IsUnload);
    }
  }

  /** 1 when the state `id` is current, 0 otherwise. */
  function CurrentCount(g: MainGame, id: StateId): nat
  {
    if g.current.Some? && g.current.value.id == id then 1 else 0
  }

  /** A switch's trace is the teardown, when a state is current, followed by the set-up. */
  lemma SwitchTraceSplits(g: MainGame, target: GameStates.BaseGameState)
    ensures SwitchGameState(g, target).1
      == (if g.current.Some? then TeardownCalls(g.current.value.id) else [])
         + SetupCalls(target, g.viewportWidth, g.viewportHeight)
  {
  }

  /** Per state: the set-up loads only the target and unloads nothing. */
  lemma SetupCountsPerState(target: GameStates.BaseGameState, viewportWidth: int, viewportHeight: int, id: StateId)
    ensures var setup := SetupCalls(target, viewportWidth, viewportHeight);
      && Occurrences(setup, LoadContent(id)) == (if target.id == id then 1 else 0)
      && Occurrences(setup, UnloadContent(id)) == 0
  {
    SetupCallsListed(target, viewportWidth, viewportHeight);
  }

  /** Per state: one switch loads the target and unloads the previously current state. */
  lemma SwitchLoadsTargetUnloadsPrevious(g: MainGame, target: GameStates.BaseGameState, id: StateId)
    ensures var t := SwitchGameState(g, target).1;
      && Occurrences(t, LoadContent(id)) == (if target.id == id then 1 else 0)
      && Occurrences(t, UnloadContent(id)) == CurrentCount(g, id)
  {
    var setup := SetupCalls(target, g.viewportWidth, g.viewportHeight);
    var teardown := if g.current.Some? then TeardownCalls(g.current.value.id) else [];
    SwitchTraceSplits(g, target);
    SetupCountsPerState(target, g.viewportWidth, g.viewportHeight, id);
    assert multiset(teardown)[LoadContent(id)] == 0;
    assert multiset(teardown)[UnloadContent(id)] == CurrentCount(g, id);
    assert multiset(teardown + setup) == multiset(teardown) + multiset(setup);
  }

  /** Per state, over a run of switches: loads plus the initially current state balance
      unloads plus the finally current state. */
  lemma {:induction false} SwitchAllBalancesPerState(g: MainGame, targets: seq<GameStates.BaseGameState>, id: StateId)
    ensures var r := SwitchAll(g, targets);
      Occurrences(r.1, LoadContent(id)) + CurrentCount(g, id)
      == Occurrences(r.1, UnloadContent(id)) + CurrentCount(r.0, id)
    decreases |targets|
  {
    if |targets| > 0 {
      var first := SwitchGameState(g, targets[0]);
      var rest := SwitchAll(first.0, targets[1..]);
      SwitchLoadsTargetUnloadsPrevious(g, targets[0], id);
      SwitchAllBalancesPerState(first.0, targets[1..], id);
      assert SwitchAll(g, targets).1 == first.1 + rest.1;
      assert multiset(first.1 + rest.1) == multiset(first.1) + multiset(rest.1);
    }
  }

  /** Per state, a run of switches from no state followed by the unload at exit. */
  lemma RunThenExitBalances(g: MainGame, targets: seq<GameStates.BaseGameState>, id: StateId)
    requires g.current.None?
    ensures var r := SwitchAll(g, targets);
      var t := r.1 + UnloadOnExit(r.0);
      Occurrences(t, LoadContent(id)) == Occurrences(t, UnloadContent(id))
  {
    var r := SwitchAll(g, targets);
    var exit := UnloadOnExit(r.0);
    SwitchAllBalancesPerState(g, targets, id);
    assert multiset(r.1 + exit) == multiset(r.1) + multiset(exit);
    assert multiset(exit)[LoadContent(id)] == 0;
    assert multiset(exit)[UnloadContent(id)] == CurrentCount(r.0, id);
  }

  /** In total, a run of switches from no state followed by the unload at exit loads and
      unloads once per switch. */
  lemma RunThenExitTotals(g: MainGame, targets: seq<GameStates.BaseGameState>)
    requires g.current.None?
    ensures var r := SwitchAll(g, targets);
      var t := r.1 + UnloadOnExit(r.0);
      CountWhere(t, IsLoad) == CountWhere(t, IsUnload) == |targets|
  {
    var r := SwitchAll(g, targets);
    var exit := UnloadOnExit(r.0);
    SwitchAllCounts(g, targets);
    CountWhereAppend(r.1, exit, IsLoad);
    CountWhereAppend(r.1, exit, IsUnload);
    if r.0.current.Some? {
      assert exit == [UnloadContent(r.0.current.value.id)];
      assert CountWhere(exit, IsUnload) == 1;
    }
  }

  /**
    Every state the host loads is unloaded as often as it is loaded: from a host with no
    state, after any run of switches and the unload at exit, each state id has as many
    `UnloadContent` calls as `LoadContent` calls, and both totals equal the number of
    switches.
  */
  lemma {:induction false} LoadsMatchUnloads(g: MainGame, targets: seq<GameStates.BaseGameState>)
    requires g.current.None?
    ensures var r := SwitchAll(g, targets);
      var t := r.1 + UnloadOnExit(r.0);
      forall id: StateId :: Occurrences(t, LoadContent(id)) == Occurrences(t, UnloadContent(id))
    ensures var r := SwitchAll(g, targets);
      var t := r.1 + UnloadOnExit(r.0);
      CountWhere(t, IsLoad) == CountWhere(t, IsUnload) == |targets|
  {
    var r := SwitchAll(g, targets);
    var exit := UnloadOnExit(r.0);
    var t := r.1 + exit;
    forall id: StateId
      ensures Occurrences(t, LoadContent(id)) == Occurrences(t, UnloadContent(id))
    {
      RunThenExitBalances(g, targets, id);
    }
    RunThenExitTotals(g, targets);
  }
}

=== FILE: registry.dfy ===
/**
  The object list a game state owns (`BaseGameState._gameObjects`): a `List<BaseGameObject>`
  with append, remove-first-occurrence, and the stable `OrderBy(a => a.zIndex)` used when
  rendering. Game objects are opaque; only their identity and z-index matter here.
*/
module Registry {
  import opened Trace

  datatype GameObject = GameObject(id: ObjectId, zIndex: int)

  /** Index of the first occurrence of `o` in `s`. */
  function FirstIndex(s: seq<GameObject>, o: GameObject): (i: nat)
    requires o in s
    ensures i < |s| && s[i] == o
    ensures o !in s[..i]
  {
    if s[0] == o then 0
    else
      var i := 1 + FirstIndex(s[1..], o);
      assert s[..i] == [s[0]] + s[1..][..i - 1];
      i
  }

  /** `List<T>.Remove`: deletes the first occurrence of `o`; no change when `o` is absent. */
  function RemoveFirst(s: seq<GameObject>, o: GameObject): (r: seq<GameObject>)
    ensures o !in s ==> r == s
    ensures o in s ==> r == s[..FirstIndex(s, o)] + s[FirstIndex(s, o) + 1..]
  {
    if |s| == 0 then s
    else
      if s[0] == o then s[1..]
      else
        var rest := RemoveFirst(s[1..], o);
        assert s == [s[0]] + s[1..];
        assert o in s ==> [s[0]] + rest == s[..FirstIndex(s, o)] + s[FirstIndex(s, o) + 1..] by {
          if o in s {
            RemoveFirstStep(s, o, rest);
          }
        }
        [s[0]] + rest
  }

  /** Removing past a head that is not `o` keeps the head in front. */
  lemma RemoveFirstStep(s: seq<GameObject>, o: GameObject, rest: seq<GameObject>)
    requires |s| > 0 && s[0] != o && o in s[1..]
    requires rest == s[1..][..FirstIndex(s[1..], o)] + s[1..][FirstIndex(s[1..], o) + 1..]
    ensures [s[0]] + rest == s[..FirstIndex(s, o)] + s[FirstIndex(s, o) + 1..]
  {
    var i := FirstIndex(s[1..], o);
    assert FirstIndex(s, o) == i + 1;
    assert s[..i + 1] == [s[0]] + s[1..][..i];
    assert s[i + 2..] == s[1..][i + 1..];
  }

  /** Removing takes exactly one copy of `o` out of the list's contents, if there is one. */
  lemma RemoveFirstContents(s: seq<GameObject>, o: GameObject)
    ensures multiset(RemoveFirst(s, o)) == multiset(s) - multiset{o}
  {
    if o in s {
      var i := FirstIndex(s, o);
      assert s == s[..i] + [o] + s[i + 1..];
    }
  }

  /** Appending an object that was absent and then removing it restores the list. */
  lemma RemoveUndoesAppend(s: seq<GameObject>, o: GameObject)
    requires o !in s
    ensures RemoveFirst(s + [o], o) == s
  {
  }

  /** Objects of `s` with z-index `z`, in list order. */
  function WithZ(s: seq<GameObject>, z: int): (r: seq<GameObject>)
  {
    if |s| == 0 then []
    else (if s[0].zIndex == z then [s[0]] else []) + WithZ(s[1..], z)
  }

  predicate SortedByZ(s: seq<GameObject>)
  {
    forall i, j :: 0 <= i < j < |s| ==> s[i].zIndex <= s[j].zIndex
  }

  /** `s` is a stable sort of `t` by z-index: sorted, and for every z-index the objects
      carrying it appear in the same relative order as in `t`. */
  ghost predicate StableSortOf(s: seq<GameObject>, t: seq<GameObject>)
  {
    && SortedByZ(s)
    && forall z :: WithZ(s, z) == WithZ(t, z)
  }

  /** Inserts `o` before the first element whose z-index is not smaller. */
  function InsertByZ(o: GameObject, s: seq<GameObject>): (r: seq<GameObject>)
    requires SortedByZ(s)
    ensures SortedByZ(r)
    ensures multiset(r) == multiset{o} + multiset(s)
  {
    if |s| == 0 || o.zIndex <= s[0].zIndex then
      InsertAtFront(o, s);
      [o] + s
    else
      var rest := InsertByZ(o, s[1..]);
      assert s == [s[0]] + s[1..];
      InsertAfterHead(s[0], o, s[1..], rest);
      [s[0]] + rest
  }

  /** An object no higher than the head of a sorted list can go in front of it. */
  lemma InsertAtFront(o: GameObject, s: seq<GameObject>)
    requires SortedByZ(s)
    requires |s| == 0 || o.zIndex <= s[0].zIndex
    ensures SortedByZ([o] + s)
  {
    var r := [o] + s;
    forall i, j | 0 <= i < j < |r| ensures r[i].zIndex <= r[j].zIndex {
      if i == 0 {
        assert r[j] == s[j - 1];
        assert s[0].zIndex <= s[j - 1].zIndex;
      } else {
        assert r[i] == s[i - 1] && r[j] == s[j - 1];
      }
    }
  }

  /** Keeping a lower head in front of the insertion into the tail keeps the list sorted
      and adds exactly `o` to its contents. */
  lemma InsertAfterHead(h: GameObject, o: GameObject, t: seq<GameObject>, rest: seq<GameObject>)
    requires SortedByZ([h] + t) && h.zIndex < o.zIndex
    requires SortedByZ(rest) && multiset(rest) == multiset{o} + multiset(t)
    ensures SortedByZ([h] + rest)
    ensures multiset([h] + rest) == multiset{o} + multiset([h] + t)
  {
    assert forall j :: 0 <= j < |t| ==> h.zIndex <= t[j].zIndex by {
      forall j | 0 <= j < |t| ensures h.zIndex <= t[j].zIndex {
        assert ([h] + t)[0] == h && ([h] + t)[j + 1] == t[j];
      }
    }
    assert multiset(rest) == multiset([o] + t);
    SameContentsSameBound(rest, [o] + t, h.zIndex);
    InsertAtFront(h, rest);
  }

  /** A lower bound on the z-indices of a list holds for any list with the same contents. */
  lemma SameContentsSameBound(r: seq<GameObject>, t: seq<GameObject>, b: int)
    requires multiset(r) == multiset(t)
    requires forall j :: 0 <= j < |t| ==> b <= t[j].zIndex
    ensures forall j :: 0 <= j < |r| ==> b <= r[j].zIndex
  {
    forall j | 0 <= j < |r| ensures b <= r[j].zIndex {
      assert r[j] in multiset(t);
    }
  }

  /** Inserting `o` adds it in front of the objects sharing its z-index and leaves the
      other z-indices untouched. */
  lemma {:induction false} WithZInsert(o: GameObject, s: seq<GameObject>, z: int)
    requires SortedByZ(s)
    ensures WithZ(InsertByZ(o, s), z) == (if o.zIndex == z then [o] else []) + WithZ(s, z)
    decreases |s|
  {
    var r := InsertByZ(o, s);
    if |s| == 0 || o.zIndex <= s[0].zIndex {
      assert r[1..] == s;
    } else {
      var rest := InsertByZ(o, s[1..]);
      assert r[1..] == rest;
      WithZInsert(o, s[1..], z);
      assert WithZ(s, z) == (if s[0].zIndex == z then [s[0]] else []) + WithZ(s[1..], z);
      if o.zIndex == z {
        assert s[0].zIndex != z;
      }
    }
  }

  /** `Enumerable.OrderBy(a => a.zIndex)`: a stable sort by z-index. */
  function SortByZ(s: seq<GameObject>): (r: seq<GameObject>)
    ensures SortedByZ(r)
    ensures multiset(r) == multiset(s)
  {
    if |s| == 0 then []
    else
      var r := InsertByZ(s[0], SortByZ(s[1..]));
      assert s == [s[0]] + s[1..];
      r
  }

  /** `SortByZ` is a stable sort: within each z-index, list order is kept. */
  lemma {:induction false} SortByZIsStable(s: seq<GameObject>)
    ensures StableSortOf(SortByZ(s), s)
    decreases |s|
  {
    if |s| > 0 {
      SortByZIsStable(s[1..]);
      forall z ensures WithZ(SortByZ(s), z) == WithZ(s, z) {
        WithZInsert(s[0], SortByZ(s[1..]), z);
      }
    }
  }

  lemma WithZMembers(s: seq<GameObject>, z: int, x: GameObject)
    ensures x in WithZ(s, z) <==> x in s && x.zIndex == z
  {
  }

  /** Two lists sorted by z-index that agree on the order within every z-index are equal. */
  lemma {:induction false} SortedWithSameGroupsAreEqual(a: seq<GameObject>, b: seq<GameObject>)
    requires SortedByZ(a) && SortedByZ(b)
    requires forall z :: WithZ(a, z) == WithZ(b, z)
    ensures a == b
    decreases |a|
  {
    if |a| == 0 {
      if |b| > 0 {
        assert false;
      }
    } else {
      var m := a[0].zIndex;
      assert a[0] in WithZ(a, m);
      WithZMembers(b, m, a[0]);
      assert |b| > 0 && b[0].zIndex <= m;
      assert b[0] in WithZ(b, b[0].zIndex);
      WithZMembers(a, b[0].zIndex, b[0]);
      assert m <= b[0].zIndex;
      assert WithZ(a, m)[0] == a[0] && WithZ(b, m)[0] == b[0];
      assert a[0] == b[0];
      forall z ensures WithZ(a[1..], z) == WithZ(b[1..], z) {
        var head := if m == z then [a[0]] else [];
        assert WithZ(a, z) == head + WithZ(a[1..], z);
        assert WithZ(b, z) == head + WithZ(b[1..], z);
        assert (head + WithZ(a[1..], z))[|head|..] == WithZ(a[1..], z);
        assert (head + WithZ(b[1..], z))[|head|..] == WithZ(b[1..], z);
      }
      SortedWithSameGroupsAreEqual(a[1..], b[1..]);
      assert a == [a[0]] + a[1..] && b == [b[0]] + b[1..];
    }
  }

  /** The stable sort by z-index is unique, so `SortByZ` is exactly `OrderBy(a => a.zIndex)`
      however that is implemented. */
  lemma StableSortIsSortByZ(r: seq<GameObject>, s: seq<GameObject>)
    requires StableSortOf(r, s)
    ensures r == SortByZ(s)
  {
    SortByZIsStable(s);
    SortedWithSameGroupsAreEqual(r, SortByZ(s));
  }

  /** Objects registered with z-indices 3, 1, 2 are ordered 1, 2, 3. */
  lemma SortExample()
    ensures SortByZ([GameObject(0, 3), GameObject(1, 1), GameObject(2, 2)])
      == [GameObject(1, 1), GameObject(2, 2), GameObject(0, 3)]
  {
  }

  /** Objects that share a z-index keep their registration order. */
  lemma SortTieExample()
    ensures SortByZ([GameObject(0, 1), GameObject(1, 0), GameObject(2, 1)])
      == [GameObject(1, 0), GameObject(0, 1), GameObject(2, 1)]
  {
  }
}

=== FILE: scale.dfy ===
/**
  The letterbox rectangle of `MainGame.GetScaleRectangle`.

  The fixed-resolution frame (design size `dw` x `dh`) is blitted into a window of
  `w` x `h` pixels. The source compares float aspect ratios and rounds with `+ 0.5` and a
  truncating cast; here the same computation is written in exact integer arithmetic:
  `w / h <= dw / dh` becomes `w * dh <= dw * h`, and `(int)(w * dh / dw + 0.5)` becomes
  `(2 * w * dh + dw) / (2 * dw)`.
*/
module Scale {

  /** XNA's `Rectangle(x, y, width, height)`. */
  datatype Rect = Rect(x: int, y: int, width: int, height: int)

  /** C#'s integer `/`, which truncates toward zero. */
  function CsDiv(a: int, b: int): int
    requires b > 0
  {
    if a >= 0 then a / b else -((-a) / b)
  }

  /** `r` is `num / den` rounded half-up: `r - 1/2 <= num / den < r + 1/2`. */
  predicate IsRoundHalfUp(r: int, num: int, den: int)
    requires den > 0
  {
    den * (2 * r - 1) <= 2 * num < den * (2 * r + 1)
  }

  /** The window is no wider, relative to its height, than the design resolution. */
  predicate WindowNotWider(w: nat, h: nat, dw: nat, dh: nat)
  {
    w * dh <= dw * h
  }

  /** `r` lies inside the `w` x `h` window. */
  predicate InsideWindow(r: Rect, w: int, h: int)
  {
    && 0 <= r.x && 0 <= r.y && 0 <= r.width && 0 <= r.height
    && r.x + r.width <= w && r.y + r.height <= h
  }

  /** `r` is centred: the two bars on each axis differ by at most one pixel. */
  predicate Centred(r: Rect, w: int, h: int)
  {
    && 0 <= (w - r.width) - 2 * r.x <= 1
    && 0 <= (h - r.height) - 2 * r.y <= 1
  }

  function ScaleRectangle(w: nat, h: nat, dw: nat, dh: nat): (r: Rect)
    requires dw > 0 && dh > 0
    ensures WindowNotWider(w, h, dw, dh) ==>
      r.x == 0 && r.width == w && IsRoundHalfUp(r.height, w * dh, dw)
      && r.y == (h - r.height) / 2
    ensures !WindowNotWider(w, h, dw, dh) ==>
      r.y == 0 && r.height == h && IsRoundHalfUp(r.width, h * dw, dh)
      && r.x == (w - r.width) / 2
    ensures InsideWindow(r, w, h)
    ensures Centred(r, w, h)
  {
    if w * dh <= dw * h then
      var presentHeight := RoundHalfUp(w * dh, dw);
      RoundHalfUpFits(w * dh, dw, h);
      Rect(0, CsDiv(h - presentHeight, 2), w, presentHeight)
    else
      var presentWidth := RoundHalfUp(h * dw, dh);
      RoundHalfUpFits(h * dw, dh, w);
      Rect(CsDiv(w - presentWidth, 2), 0, presentWidth, h)
  }

  /** `(int)(num / den + 0.5)` for non-negative `num / den`, in exact arithmetic. */
  function RoundHalfUp(num: nat, den: nat): nat
    requires den > 0
  {
    (2 * num + den) / (2 * den)
  }

  /** The rounding used by both branches is round-half-up of `num / den`, and it does not
      exceed a bound `m` that `num / den` does not exceed. */
  lemma RoundHalfUpFits(num: nat, den: nat, m: nat)
    requires den > 0
    ensures IsRoundHalfUp(RoundHalfUp(num, den), num, den)
    ensures num <= den * m ==> RoundHalfUp(num, den) <= m
  {
    RoundHalfUpCorrect(num, den);
    if num <= den * m {
      RoundHalfUpBelow(num, den, m);
    }
  }

  /** `RoundHalfUp` meets the round-half-up bounds. */
  lemma RoundHalfUpCorrect(num: nat, den: nat)
    requires den > 0
    ensures IsRoundHalfUp(RoundHalfUp(num, den), num, den)
  {
    var q: int := RoundHalfUp(num, den);
    var rem := (2 * num + den) % (2 * den);
    var p: int := den * q;
    assert 2 * num + den == 2 * p + rem && 0 <= rem < 2 * den by {
      assert 2 * num + den == (2 * den) * q + rem;
      assert (2 * den) * q == 2 * p;
    }
    assert den * (2 * q - 1) == 2 * p - den && den * (2 * q + 1) == 2 * p + den;
  }

  /** Rounding `num / den` half up stays within a bound `num / den` does not exceed. */
  lemma RoundHalfUpBelow(num: nat, den: nat, m: nat)
    requires den > 0 && num <= den * m
    ensures RoundHalfUp(num, den) <= m
  {
    var q: int := RoundHalfUp(num, den);
    RoundHalfUpCorrect(num, den);
    assert den * (2 * m + 1) == 2 * (den * m) + den;
    MulMonotone(den, 2 * m + 1, 2 * q - 1);
  }

  lemma MulMonotone(k: nat, a: int, b: int)
    ensures a <= b ==> k * a <= k * b
  {
  }

  /** Round-half-up has exactly one value for given `num` and `den`. */
  lemma RoundHalfUpUnique(r1: int, r2: int, num: int, den: int)
    requires den > 0
    requires IsRoundHalfUp(r1, num, den) && IsRoundHalfUp(r2, num, den)
    ensures r1 == r2
  {
  }

  /** A window whose aspect ratio equals the design's gets the whole window, with no bars. */
  lemma SameAspectIsFullWindow(w: nat, h: nat, dw: nat, dh: nat)
    requires dw > 0 && dh > 0
    requires w * dh == dw * h
    ensures ScaleRectangle(w, h, dw, dh) == Rect(0, 0, w, h)
  {
    assert RoundHalfUp(w * dh, dw) == h by {
      RoundHalfUpCorrect(w * dh, dw);
      assert dw * (2 * h - 1) == 2 * (dw * h) - dw && dw * (2 * h + 1) == 2 * (dw * h) + dw;
      RoundHalfUpUnique(RoundHalfUp(w * dh, dw), h, w * dh, dw);
    }
    assert CsDiv(h - h, 2) == 0;
  }

  /** `Initialize` sets the back buffer to the design resolution before computing the
      rectangle, so the first rectangle covers the whole window. */
  lemma InitialRectangleIsFullWindow(dw: nat, dh: nat)
    requires dw > 0 && dh > 0
    ensures ScaleRectangle(dw, dh, dw, dh) == Rect(0, 0, dw, dh)
  {
    SameAspectIsFullWindow(dw, dh, dw, dh);
  }

  /** Design 800x600 in a 1000x600 window: pillar-boxed with 100-pixel bars. */
  lemma WiderWindowExample()
    ensures ScaleRectangle(1000, 600, 800, 600) == Rect(100, 0, 800, 600)
  {
  }

  /** Design 800x600 in an 800x700 window: letter-boxed with 50-pixel bars. */
  lemma TallerWindowExample()
    ensures ScaleRectangle(800, 700, 800, 600) == Rect(0, 50, 800, 600)
  {
  }

  /** The source has no guard for an empty window; a window with no width or no height
      gives a rectangle with neither. */
  lemma EmptyWindowGivesEmptyRectangle(w: nat, h: nat, dw: nat, dh: nat)
    requires dw > 0 && dh > 0
    requires w == 0 || h == 0
    ensures ScaleRectangle(w, h, dw, dh).width == 0 && ScaleRectangle(w, h, dw, dh).height == 0
  {
  }

  /** The presented rectangle keeps the design aspect ratio up to rounding: its scaled
      dimension differs from the exact one by at most half a pixel. */
  lemma KeepsDesignAspect(w: nat, h: nat, dw: nat, dh: nat)
    requires dw > 0 && dh > 0
    ensures var r := ScaleRectangle(w, h, dw, dh);
      WindowNotWider(w, h, dw, dh) ==> -(dw as int) <= 2 * (r.height * dw - r.width * dh) <= dw
    ensures var r := ScaleRectangle(w, h, dw, dh);
      !WindowNotWider(w, h, dw, dh) ==> -(dh as int) <= 2 * (r.width * dh - r.height * dw) <= dh
  {
  }
}

=== FILE: trace.dfy ===
/**
  Identities, events and the lifecycle trace shared by the host and the game states.

  Every call the engine makes into a game state (or into the collaborators it cannot see:
  the content manager, the input manager, the sound manager) is recorded as a `Call`,
  so that ordering and "exactly once" promises can be stated over the returned sequence.
*/
module Trace {

  /** Game states and game objects are reference types in the source; we give them ids. */
  type StateId = nat
  type ObjectId = nat

  /** The two C# events a game state exposes and the host subscribes to. */
  datatype Signal = StateSwitched | EventNotification

  /** `BaseGameStateEvent`: only `GameQuit` is visible; the other variants are opaque. */
  datatype GameEvent = GameQuit | OtherEvent(tag: nat)

  datatype Call =
    | Subscribe(state: StateId, signal: Signal)
    | Unsubscribe(state: StateId, signal: Signal)
    | Initialize(state: StateId, viewportWidth: int, viewportHeight: int)
    | SetInputManager(state: StateId)
    | LoadContent(state: StateId)
    | UnloadContent(state: StateId)
    | HandleInput(state: StateId)
    | UpdateGameState(state: StateId)
    | PlaySoundtrack(state: StateId)
    | Exit

  /** Number of times `c` occurs in `t`. */
  function Occurrences(t: seq<Call>, c: Call): nat
  {
    multiset(t)[c]
  }

  /** Some occurrence of `a` comes strictly before some occurrence of `b`. */
  predicate Precedes(t: seq<Call>, a: Call, b: Call)
  {
    exists i, j :: 0 <= i < j < |t| && t[i] == a && t[j] == b
  }

  /** Counts add up over a concatenation. */
  lemma OccurrencesAppend(a: seq<Call>, b: seq<Call>, c: Call)
    ensures Occurrences(a + b, c) == Occurrences(a, c) + Occurrences(b, c)
  {
    assert multiset(a + b) == multiset(a) + multiset(b);
  }

  /** Two positions in order witness `Precedes` for the calls found there. */
  lemma PrecedesAt(t: seq<Call>, i: nat, j: nat)
    requires i < j < |t|
    ensures Precedes(t, t[i], t[j])
  {
  }

  predicate IsLoad(c: Call)
  {
    c.LoadContent?
  }

  predicate IsUnload(c: Call)
  {
    c.UnloadContent?
  }

  /** Number of entries of `t` that satisfy `p`. `Occurrences` counts one exact call, such as
      the loads of one state; this counts a kind of call across all states, which a sum of
      per-state counts over the unbounded state ids cannot express. */
  function CountWhere(t: seq<Call>, p: Call -> bool): nat
  {
    if |t| == 0 then 0
    else CountWhere(t[..|t| - 1], p) + (if p(t[|t| - 1]) then 1 else 0)
  }

  lemma {:induction false} CountWhereAppend(a: seq<Call>, b: seq<Call>, p: Call -> bool)
    ensures CountWhere(a + b, p) == CountWhere(a, p) + CountWhere(b, p)
    decreases |b|
  {
    if |b| == 0 {
      assert a + b == a;
    } else {
      var b' := b[..|b| - 1];
      assert (a + b)[..|a + b| - 1] == a + b';
      CountWhereAppend(a, b', p);
    }
  }

  lemma {:induction false} CountWhereNone(t: seq<Call>, p: Call -> bool)
    requires forall i :: 0 <= i < |t| ==> !p(t[i])
    ensures CountWhere(t, p) == 0
    decreases |t|
  {
    if |t| > 0 {
      CountWhereNone(t[..|t| - 1], p);
    }
  }

  /** A trace with exactly one entry satisfying `p` counts one. */
  lemma {:induction false} CountWhereOne(t: seq<Call>, p: Call -> bool, k: nat)
    requires k < |t| && p(t[k])
    requires forall i :: 0 <= i < |t| && i != k ==> !p(t[i])
    ensures CountWhere(t, p) == 1
    decreases |t|
  {
    var init := t[..|t| - 1];
    if k == |t| - 1 {
      CountWhereNone(init, p);
    } else {
      CountWhereOne(init, p, k);
    }
  }
}

=== FILE: wrappers.dfy ===
/** The optional value used wherever the source holds a reference that may be null. */
module Wrappers {

  datatype Option<+T> = None | Some(value: T)
}
